=== FILE: README.md ===
# Invoice creation and stock top-up of a GST billing tool

This project models, in Dafny, two of the handlers of a small Flask billing
application that change its data: `create_invoice`, which turns a product
selection into a GST invoice and decrements stock, and the POST branch of
`update_stock`, the admin top-up. The third, `add_product`, only inserts a
product row and is left out. Each handler is one pure step on a state
made of the products table (an ordered catalog of `{id, code, name, hsn, uom,
rate, stock}`), the invoices table (the ledger) and the rendered invoice
documents by file name.

`create_invoice` walks the catalog in order. For each product it reads the
quantity field with `float(d.get(k, 0) or 0)`, so an absent or blank field
means 0. A product with a positive quantity gets a line priced at its rate,
`amount = qty * rate`. The line amounts are summed in line order. The
subtotal is tax-inclusive. The taxable value is `subtotal / 1.18` and the tax
is the rest. The tax is charged as equal CGST and SGST halves when the
customer's State code is the supplier's `"37"` (an intra-State supply), and
as IGST otherwise (an inter-State supply, sections 7 and 8 of the Integrated
Goods and Services Tax Act, 2017). The handler then writes the document
`<invoice_no>.pdf`. Last, it commits the stock decrements and one new invoice
row together, on one database connection with one commit.

Modules, leaf first:

- `Results` (results.dfy): `Result`, `Option` and the error kinds. Each
  error kind is an exception raised before or by the commit.
- `Forms` (forms.dfy): numeric form fields, classified by what Python's
  `float()` does with their text: blank, a number, or junk.
- `Catalog` (catalog.dfy): products, unique ids, and the one-row
  `UPDATE ... SET stock = stock + ?` as `Adjust`.
- `Lines` (lines.dfy): line building, the subtotal, and the catalog-wide
  value used as an independent reference.
- `Sales` (sales.dfy): the stock effect of a list of lines. It also holds
  `Checkout`, a method that mirrors the handler's single loop, which builds
  lines, sums and decrements in one pass. `Checkout` is proved equal to the
  functional definitions.
- `Gst` (gst.dfy): the place-of-supply rule and the tax split.
- `Billing` (billing.dfy): the state, the two steps, their all-or-nothing
  contracts, frame lemmas, invariants, and parametric worked examples.

Money, rates, quantities and stock are exact `real`s, so the identities
below hold exactly. The outcomes of writing the document and of the database
commit are inputs to the step (`Effects`), because they are I/O.

## Behaviour as coded

In these points the handler behaves in ways that are easy to miss, and the
model follows the code:

- A quantity that `float()` rejects does not just skip its line. It raises,
  and the whole request fails with no change (`Lines.BuildLinesFirstBad`,
  `Billing.CreateInvoiceAtomic`).
- The document is written before the commit, not after it. A failed write
  means no invoice. A failed commit leaves the document behind with no
  invoice row (`Billing.FailedCommitLeavesDocument`).
- Stock is never checked for sufficiency, so it can go negative
  (`Billing.OversellGoesNegative`).
- Invoice numbers are not checked for uniqueness. A repeated number adds a
  second row and overwrites the first invoice's document
  (`Billing.SameNumberOverwritesDocument`). Two different numbers that
  resolve to the same file, such as `7` and `./7`, overwrite it too; the
  model does not resolve paths (see "Left out").

## Model

| member | source | states |
|---|---|---|
| Forms.ParseQuantity | app.py:195 | an absent or blank quantity reads as 0 and is not an error; an entered number reads as that number; only text float() rejects is an error, naming the product; a non-zero value comes from a number entered for that product |
| Forms.ParseRequired | app.py:168 | `add_qty` is read with `float(form[...])`: absent is a missing-field error, blank or junk is not-a-number, a number is taken as is |
| Catalog.Adjust | app.py:169-172 | the update moves the stock of the row whose id matches by the given amount; every other field and every other row stays as it was |
| Catalog.AdjustInverse | app.py:169-172 | a top-up of `q` after a decrement of `q` restores the catalog exactly |
| Catalog.AdjustMerge | app.py:210-213 | two updates of the same row add up |
| Catalog.AdjustCommute | app.py:210-213 | updates of different rows commute, so the decrement order does not matter |
| Catalog.AdjustUnknownId | app.py:169-172 | an id that matches no row changes nothing |
| Catalog.AdjustKeepsIds | app.py:169-172 | stock updates never change ids, so ids stay unique |
| Lines.BuildLines | app.py:194-208 | the line building succeeds exactly when every catalog product's quantity parses, and yields at most as many lines as there are products; which lines they are is stated by `Lines.BuildLinesSelects` |
| Lines.BuildLinesSelects | app.py:194-208 | for the lines built by `Lines.LineFor`: the lines are exactly the products with a strictly positive quantity, in catalog order; each copies its product's id, code, name, hsn, uom and rate, and has amount qty * rate |
| Lines.SelectsSingle | app.py:194-208 | when only one product is sold, the lines are that product's single line |
| Lines.BuildLinesFirstBad | app.py:194-195 | when a quantity is junk, the error names the first such product in catalog order, and all earlier quantities parse |
| Lines.SubtotalAppend | app.py:198 | the running sum over two runs of lines is the sum of their subtotals |
| Lines.SubtotalIsCatalogValue | app.py:191-198 | `Lines.Subtotal`, the running sum started at 0 and added to line by line, equals the sum, over the whole catalog, of sold quantity times rate, with 0 for products not sold |
| Lines.SubtotalNonNegative | app.py:196-198 | with non-negative rates the subtotal is non-negative |
| Lines.NothingSoldNoLines | app.py:190-198 | when no quantity is positive there are no lines and the subtotal is 0 |
| Sales.ApplySale | app.py:210-213 | the per-line decrements keep every product row; what each row loses is stated by `Sales.ApplySaleEffect` |
| Sales.ApplySaleEffect | app.py:210-213 | after the per-line decrements each product has lost exactly the total quantity the lines take from it; all other fields are unchanged and stock is never checked |
| Sales.LineQtyIsSoldQty | app.py:194-213 | with unique ids the lines take from each product exactly its positive parsed quantity, or 0 |
| Sales.SaleStock | app.py:194-213 | after a sale each sold product's stock falls by exactly its quantity, and each product without a line is untouched |
| Sales.Checkout | app.py:194-213 | one pass that parses, prices at the snapshot's rate, sums and decrements gives the same lines, subtotal and catalog as the separate definitions, and the same error |
| Gst.Split | app.py:215-223 | the taxable value times 1.18 is the subtotal; value plus tax is the subtotal; the tax is subtotal * 0.18 / 1.18; CGST + SGST + IGST is the tax; value plus the three heads is the subtotal |
| Gst.TaxableValueUnique | app.py:215 | the taxable value is the only base that 18% on top turns into the subtotal |
| Gst.SplitByPlaceOfSupply | app.py:218-223 | `Gst.PlaceOfSupply` compares the customer's State code with the supplier's, `SUPPLIER_STATE_CODE` (app.py line 18): State code "37": CGST = SGST = half the tax and IGST = 0; any other code: CGST = SGST = 0 and IGST = the whole tax |
| Gst.ExactlyOneRegime | app.py:218-223 | on a non-zero subtotal the tax is non-zero, CGST and SGST are non-zero exactly when the code is "37", and IGST is non-zero exactly when it is not |
| Gst.ZeroSubtotalNoTax | app.py:215-223 | a zero subtotal gives zero taxable value and zero tax under both regimes |
| Gst.SplitNonNegative | app.py:215-223 | a non-negative subtotal gives non-negative figures throughout |
| Gst.IntraStateExample | app.py:215-223 | 1180 within the supplier's State: taxable 1000, CGST 90, SGST 90, IGST 0 |
| Gst.InterStateExample | app.py:215-223 | 1180 to another State: taxable 1000, CGST and SGST 0, IGST 180 |
| Billing.ReadMeta | app.py:218-234 | the four text fields are read in the handler's order; the result is present exactly when all four are, and otherwise names the first one missing |
| Billing.CreateInvoice | app.py:184-260 | the catalog length is kept; on any failure the catalog and ledger are as before; on success the ledger gains exactly one row and keeps its earlier rows |
| Billing.CreateInvoiceAtomic | app.py:194-258 | an invoice is created exactly when all quantities parse, all text fields are present, the document is written and the commit succeeds; then the catalog carries every decrement; a junk quantity leaves the whole state unchanged; every failure other than the commit's leaves the whole state unchanged |
| Billing.FailedCommitLeavesDocument | app.py:244-258 | a failed commit leaves catalog and ledger unchanged but the document written: the documents are exactly those a successful commit would leave |
| Billing.DocumentName | app.py:226 | the document name is the invoice number followed by `.pdf` |
| Billing.DocumentNameInjective | app.py:226 | two invoice numbers give the same document name exactly when they are equal |
| Billing.CreateInvoiceRecord | app.py:226-256 | the new row has the form's number, date and customer, a total equal to the subtotal and to the catalog-wide value, and the document name `invoice_no + ".pdf"`; the earlier rows are kept; the document holds this invoice, whose header carries the form's State code, number, date and customer |
| Billing.CreateInvoiceLines | app.py:194-208 | the invoice's lines are exactly the sold products in catalog order, each priced from its own row |
| Billing.CreateInvoiceTotals | app.py:198-223 | the subtotal is the sum of line amounts; the tax is the 18% split of the subtotal: taxable value times 1.18 is the subtotal and the tax is subtotal * 0.18 / 1.18; value plus tax is the subtotal; the heads sum to the tax, split by the customer's State code; with no lines every figure is 0 |
| Billing.CreateInvoiceStock | app.py:196-213 | each sold product's stock falls by exactly its quantity; every product without a line is unchanged |
| Billing.CreateInvoicePreservesValid | app.py:210-258 | whatever the outcome, ids stay unique and every ledger row's document exists |
| Billing.SameNumberOverwritesDocument | app.py:226-256 | two invoices with the same number give two rows that point to one document, and that document holds the second invoice |
| Billing.UpdateStock | app.py:166-175 | a failed top-up changes nothing; a top-up never touches the ledger or the documents |
| Billing.UpdateStockEffect | app.py:166-173 | the top-up succeeds exactly when `product_id` is present, `add_qty` is a number and the commit succeeds; it then adds `add_qty` to the stock of the product with that id and leaves every other product unchanged |
| Billing.UpdateStockPreservesValid | app.py:169-173 | the top-up keeps ids unique and every row's document present |
| Billing.SingleProductSale | app.py:194-256 | selling one product gives one line priced from it, takes its quantity from that product only, and writes a row whose total is qty * rate |
| Billing.ThreeAtFifty | app.py:194-256 | 3 units at 50 with 10 on hand give one line of 150, stock 7 afterwards, and a row total of 150 |
| Billing.NothingSoldInvoice | app.py:190-256 | with nothing sold there are no lines, no tax and no stock change, and a row with total 0 is still appended |
| Billing.OversellGoesNegative | app.py:196-213 | selling more than is on hand is accepted and leaves the stock negative |

## Left out

- Billing.CreateInvoice: stores the unrounded subtotal as the row's total. The source stores `round(subtotal, 2)`. Python float rounding is not modelled.
- Gst.Split: states the taxable value and the tax heads unrounded. The rendered invoice shows each rounded to 2 decimals on its own, which can drift from the total by a cent.
- Floating point in general: `float()` parsing, `nan` and `inf` quantities, and the IEEE rounding of `qty * rate` and `subtotal / 1.18`. Quantities arrive already classified as blank, a number or junk.
- Text fields besides quantities: only their presence and value are modelled. `product_id` arrives as an optional integer. SQLite's text-to-integer comparison is not modelled.
- The amount in words (`num2words`) and the invoice time (`datetime.now()`): a foreign library and a clock.
- Billing.DocumentNameInjective: documents are keyed by the name `invoice_no + ".pdf"`, not by the file it resolves to. File-system path resolution is not modelled: aliases such as `./7` for `7`, and absolute or `..` numbers that write outside `invoices/`, are kept as separate documents here where the program keeps one file.
- HTML rendering and PDF generation: the document's content is the invoice view, and whether the write succeeds is an input. The `invoices/` directory path is not modelled.
- Concurrency between simultaneous requests: each step is atomic and applies to one state.
- The autoincrement row id of the invoices table, and the ordering used by the dashboard.
- Login, logout, sessions and the role check; `init_db`, `create_admin`, `add_product`, `home`, `stock`, the GET branches and `download_invoice`. These are web, SQL and file plumbing with no logic of the core.

=== FILE: billing.dfy ===
/** Two of the state-changing handlers of the billing tool, each one a single
    step on the state (catalog, ledger, documents): creating an invoice and
    topping up a product's stock. The third, adding a product, only inserts
    a catalog row and is not part of this model. */
module Billing {
  import opened Results
  import opened Catalog
  import opened Forms
  import opened Lines
  import opened Sales
  import opened Gst

  /** The text fields of the invoice form. */
  datatype Meta = Meta(stateCode: string, invoiceNo: string, invoiceDate: string, customerName: string)

  /** What the rendered invoice shows (times and amount in words aside). */
  datatype Invoice = Invoice(meta: Meta, lines: seq<Line>, subtotal: real, tax: TaxSplit)

  /** One row of the invoices table. */
  datatype InvoiceRecord = InvoiceRecord(
    invoiceNo: string,
    invoiceDate: string,
    customerName: string,
    total: real,
    document: string)

  /** The products table, the invoices table in insertion order, and the
      rendered documents by file name. */
  datatype State = State(catalog: seq<Product>, ledger: seq<InvoiceRecord>, documents: map<string, Invoice>)

  datatype InvoiceRequest = InvoiceRequest(fields: map<string, string>, quantities: QtyForm)

  datatype StockRequest = StockRequest(productId: Option<ProductId>, addQty: Option<NumText>)

  /** Whether the two external effects of invoice creation succeed: writing
      the document, and the database commit. */
  datatype Effects = Effects(pdfWritten: bool, committed: bool)

  /** The state after a request and what the request answered. */
  datatype Step<T> = Step(state: State, outcome: Result<T>)

  /** Product ids are unique, and every invoice on the ledger has its
      document. */
  predicate Valid(s: State)
  {
    && UniqueIds(s.catalog)
    && forall k :: 0 <= k < |s.ledger| ==> s.ledger[k].document in s.documents
  }

  function Field(fields: map<string, string>, name: string): Result<string>
  {
    if name in fields then Ok(fields[name]) else Err(MissingField(name))
  }

  /** The four text fields of the invoice form are all present. */
  predicate HasMeta(fields: map<string, string>)
  {
    "state_code" in fields && "invoice_no" in fields && "invoice_date" in fields && "customer_name" in fields
  }

  /** Reads the four text fields in the handler's order (state code,
      number, date, customer); the first one absent is the error. */
  function ReadMeta(fields: map<string, string>): (r: Result<Meta>)
    ensures r.Ok? <==> HasMeta(fields)
    ensures r.Ok? ==> r.value == Meta(fields["state_code"], fields["invoice_no"],
                                      fields["invoice_date"], fields["customer_name"])
    ensures r == Err(MissingField("state_code")) <==> "state_code" !in fields
    ensures r == Err(MissingField("invoice_no")) <==> "state_code" in fields && "invoice_no" !in fields
    ensures r == Err(MissingField("invoice_date")) <==>
      "state_code" in fields && "invoice_no" in fields && "invoice_date" !in fields
    ensures r == Err(MissingField("customer_name")) <==>
      "state_code" in fields && "invoice_no" in fields && "invoice_date" in fields && "customer_name" !in fields
  {
    match Field(fields, "state_code")
    case Err(e) => Err(e)
    case Ok(stateCode) =>
      match Field(fields, "invoice_no")
      case Err(e) => Err(e)
      case Ok(invoiceNo) =>
        match Field(fields, "invoice_date")
        case Err(e) => Err(e)
        case Ok(invoiceDate) =>
          match Field(fields, "customer_name")
          case Err(e) => Err(e)
          case Ok(customerName) => Ok(Meta(stateCode, invoiceNo, invoiceDate, customerName))
  }

  /** The file an invoice is rendered to. */
  function DocumentName(invoiceNo: string): (r: string)
    ensures |r| == |invoiceNo| + 4
    ensures r[..|invoiceNo|] == invoiceNo && r[|invoiceNo|..] == ".pdf"
  {
    invoiceNo + ".pdf"
  }

  /** Two invoice numbers give the same document name exactly when they
      are equal. Documents are keyed by this name, not by the file it
      resolves to. */
  lemma DocumentNameInjective(a: string, b: string)
    ensures DocumentName(a) == DocumentName(b) <==> a == b
  {
  }

  /** The invoice handler on a POST. The product loop runs first (a
      quantity that is not a number aborts it), then the text fields are
      read, the document is written, and only then are the decrements and
      the new invoice row committed together. Every failure before the
      commit leaves the tables as they were; the document, written before
      the commit, survives a failed commit. */
  function CreateInvoice(s: State, req: InvoiceRequest, fx: Effects): (r: Step<Invoice>)
    ensures |r.state.catalog| == |s.catalog|
    ensures r.outcome.Err? ==> r.state.catalog == s.catalog && r.state.ledger == s.ledger
    ensures r.outcome.Ok? ==> |r.state.ledger| == |s.ledger| + 1 && r.state.ledger[..|s.ledger|] == s.ledger
  {
    match SaleOf(s.catalog, req.quantities)
    case Err(e) => Step(s, Err(e))
    case Ok(sale) =>
      match ReadMeta(req.fields)
      case Err(e) => Step(s, Err(e))
      case Ok(meta) =>
        var invoice := Invoice(meta, sale.lines, sale.subtotal, Split(sale.subtotal, meta.stateCode));
        var doc := DocumentName(meta.invoiceNo);
        if !fx.pdfWritten then Step(s, Err(PdfWriteFailed))
        else
          var written := s.(documents := s.documents[doc := invoice]);
          if !fx.committed then Step(written, Err(CommitFailed))
          else
            var record := InvoiceRecord(meta.invoiceNo, meta.invoiceDate, meta.customerName, sale.subtotal, doc);
            Step(written.(catalog := sale.catalog, ledger := s.ledger + [record]), Ok(invoice))
  }

  /** All or nothing: the invoice is created exactly when every quantity
      parses, every text field is present and both effects succeed, and
      then both the decrements and the new row are in; otherwise neither
      is. */
  lemma CreateInvoiceAtomic(s: State, req: InvoiceRequest, fx: Effects)
    ensures var r := CreateInvoice(s, req, fx);
      r.outcome.Ok? <==>
        AllParse(s.catalog, req.quantities) && HasMeta(req.fields) && fx.pdfWritten && fx.committed
    ensures var r := CreateInvoice(s, req, fx);
      r.outcome.Ok? ==>
        var lines := BuildLines(s.catalog, req.quantities).value;
        r.state.catalog == ApplySale(s.catalog, lines) && r.outcome.value.lines == lines
    ensures var r := CreateInvoice(s, req, fx);
      !AllParse(s.catalog, req.quantities) ==>
        r.state == s && r.outcome == Err(BuildLines(s.catalog, req.quantities).error)
    ensures var r := CreateInvoice(s, req, fx);
      r.outcome.Err? && r.outcome.error != CommitFailed ==> r.state == s
  {
  }

  /** A failed commit leaves the rendered document behind with no invoice
      row and no stock change: the document is written before the commit. */
  lemma FailedCommitLeavesDocument(s: State, req: InvoiceRequest)
    requires AllParse(s.catalog, req.quantities) && HasMeta(req.fields)
    ensures var r := CreateInvoice(s, req, Effects(true, false));
      && r.outcome == Err(CommitFailed)
      && r.state.catalog == s.catalog && r.state.ledger == s.ledger
      && DocumentName(req.fields["invoice_no"]) in r.state.documents
      && r.state.documents == CreateInvoice(s, req, Effects(true, true)).state.documents
  {
  }

  /** The new invoice row: number, date and customer from the form, total
      equal to the subtotal (the sum of sold quantity times rate over the
      catalog), document named after the number; the earlier rows are kept
      and the document holds this invoice, whose header carries the form's
      State code, number, date and customer. */
  lemma CreateInvoiceRecord(s: State, req: InvoiceRequest, fx: Effects)
    requires CreateInvoice(s, req, fx).outcome.Ok?
    ensures var r := CreateInvoice(s, req, fx);
      var rec := r.state.ledger[|s.ledger|];
      && r.state.ledger == s.ledger + [rec]
      && rec.invoiceNo == req.fields["invoice_no"]
      && rec.invoiceDate == req.fields["invoice_date"]
      && rec.customerName == req.fields["customer_name"]
      && rec.total == r.outcome.value.subtotal == CatalogValue(s.catalog, req.quantities)
      && rec.document == req.fields["invoice_no"] + ".pdf"
      && r.state.documents == s.documents[rec.document := r.outcome.value]
      && r.outcome.value.meta == Meta(req.fields["state_code"], req.fields["invoice_no"],
                                      req.fields["invoice_date"], req.fields["customer_name"])
  {
    SubtotalIsCatalogValue(s.catalog, req.quantities);
  }

  /** The invoice's lines are exactly the sold products, in catalog order,
      each priced from its own row. */
  lemma CreateInvoiceLines(s: State, req: InvoiceRequest, fx: Effects) returns (pos: seq<int>)
    requires CreateInvoice(s, req, fx).outcome.Ok?
    ensures Selects(s.catalog, req.quantities, CreateInvoice(s, req, fx).outcome.value.lines, pos)
  {
    pos := BuildLinesSelects(s.catalog, req.quantities);
  }

  /** The invoice's figures: the subtotal is the sum of the line amounts,
      the taxable value is the subtotal net of 18% GST, the taxable value
      and tax add up to the subtotal, and the tax is charged as
      CGST+SGST or as IGST according to the customer's State code. With no
      lines every figure is 0. */
  lemma CreateInvoiceTotals(s: State, req: InvoiceRequest, fx: Effects)
    requires CreateInvoice(s, req, fx).outcome.Ok?
    ensures var inv := CreateInvoice(s, req, fx).outcome.value;
      && inv.subtotal == Subtotal(inv.lines)
      && inv.tax == Split(inv.subtotal, req.fields["state_code"])
      && inv.tax.gross * INCLUSIVE_FACTOR == inv.subtotal
      && inv.tax.gst == inv.subtotal * 0.18 / 1.18
      && inv.tax.gross + inv.tax.gst == inv.subtotal
      && inv.tax.cgst + inv.tax.sgst + inv.tax.igst == inv.tax.gst
      && (req.fields["state_code"] == SUPPLIER_STATE_CODE ==>
            inv.tax.cgst == inv.tax.sgst == inv.tax.gst / 2.0 && inv.tax.igst == 0.0)
      && (req.fields["state_code"] != SUPPLIER_STATE_CODE ==>
            inv.tax.cgst == inv.tax.sgst == 0.0 && inv.tax.igst == inv.tax.gst)
      && (inv.lines == [] ==> inv.subtotal == 0.0 && inv.tax == TaxSplit(0.0, 0.0, 0.0, 0.0, 0.0))
  {
  }

  /** Stock after an invoice: every sold product loses exactly its quantity,
      with no check that enough was on hand, and every other product is
      unchanged. */
  lemma CreateInvoiceStock(s: State, req: InvoiceRequest, fx: Effects)
    requires Valid(s)
    requires CreateInvoice(s, req, fx).outcome.Ok?
    ensures var cat := CreateInvoice(s, req, fx).state.catalog;
      && |cat| == |s.catalog|
      && (forall i :: 0 <= i < |s.catalog| ==>
            cat[i] == s.catalog[i].(stock := s.catalog[i].stock - SoldQty(req.quantities, s.catalog[i].id)))
      && (forall i :: 0 <= i < |s.catalog| && !Sold(req.quantities, s.catalog[i].id) ==>
            cat[i] == s.catalog[i])
  {
    SaleStock(s.catalog, req.quantities);
  }

  /** Invoice creation keeps the state valid, whatever its outcome. */
  lemma CreateInvoicePreservesValid(s: State, req: InvoiceRequest, fx: Effects)
    requires Valid(s)
    ensures Valid(CreateInvoice(s, req, fx).state)
  {
    var r := CreateInvoice(s, req, fx);
    if r.outcome.Ok? {
      SaleStock(s.catalog, req.quantities);
      assert forall i :: 0 <= i < |s.catalog| ==> r.state.catalog[i].id == s.catalog[i].id;
      var rec := r.state.ledger[|s.ledger|];
      assert rec.document in r.state.documents;
      assert forall k :: 0 <= k < |s.ledger| ==> r.state.ledger[k] == s.ledger[k];
    }
  }

  /** Invoice numbers are not checked for uniqueness: a second invoice with
      the same number adds a second row but overwrites the first one's
      document, so both rows now point at the second invoice. */
  lemma SameNumberOverwritesDocument(s: State, req1: InvoiceRequest, req2: InvoiceRequest, fx: Effects)
    requires CreateInvoice(s, req1, fx).outcome.Ok?
    requires CreateInvoice(CreateInvoice(s, req1, fx).state, req2, fx).outcome.Ok?
    requires req1.fields["invoice_no"] == req2.fields["invoice_no"]
    ensures var mid := CreateInvoice(s, req1, fx).state;
      var r := CreateInvoice(mid, req2, fx);
      && |r.state.ledger| == |s.ledger| + 2
      && r.state.ledger[|s.ledger|].document == r.state.ledger[|s.ledger| + 1].document
      && r.state.documents[r.state.ledger[|s.ledger|].document] == r.outcome.value
  {
    CreateInvoiceRecord(s, req1, fx);
    var mid := CreateInvoice(s, req1, fx).state;
    CreateInvoiceRecord(mid, req2, fx);
  }

  /** The admin stock top-up on a POST: `product_id` is read first, then
      `add_qty` through float(), then the one-row update is committed. A
      product id that matches no row commits nothing and is not an error. */
  function UpdateStock(s: State, req: StockRequest, committed: bool): (r: Step<()>)
    ensures r.outcome.Err? ==> r.state == s
    ensures r.state.ledger == s.ledger && r.state.documents == s.documents
  {
    match req.productId
    case None => Step(s, Err(MissingField("product_id")))
    case Some(pid) =>
      match ParseRequired(req.addQty, "add_qty")
      case Err(e) => Step(s, Err(e))
      case Ok(q) =>
        if !committed then Step(s, Err(CommitFailed))
        else Step(s.(catalog := Adjust(s.catalog, pid, q)), Ok(()))
  }

  /** The top-up succeeds exactly when both fields are present, `add_qty`
      is a number and the commit succeeds; it then raises the stock of the
      product with that id by `add_qty` (a negative number lowers it) and
      leaves every other product and field unchanged. */
  lemma UpdateStockEffect(s: State, req: StockRequest, committed: bool)
    ensures var r := UpdateStock(s, req, committed);
      r.outcome.Ok? <==> req.productId.Some? && req.addQty.Some? && req.addQty.value.Number? && committed
    ensures var r := UpdateStock(s, req, committed);
      r.outcome.Ok? ==>
        var pid, q := req.productId.value, req.addQty.value.value;
        && |r.state.catalog| == |s.catalog|
        && (forall i :: 0 <= i < |s.catalog| && s.catalog[i].id == pid ==>
              r.state.catalog[i] == s.catalog[i].(stock := s.catalog[i].stock + q))
        && (forall i :: 0 <= i < |s.catalog| && s.catalog[i].id != pid ==>
              r.state.catalog[i] == s.catalog[i])
  {
  }

  /** The top-up keeps the state valid. */
  lemma UpdateStockPreservesValid(s: State, req: StockRequest, committed: bool)
    requires Valid(s)
    ensures Valid(UpdateStock(s, req, committed).state)
  {
  }

  /** A request that sells exactly one product, catalog position `i`, and
      otherwise succeeds. */
  ghost predicate SellsOnly(s: State, req: InvoiceRequest, fx: Effects, i: int)
  {
    && 0 <= i < |s.catalog|
    && AllParse(s.catalog, req.quantities) && HasMeta(req.fields) && fx == Effects(true, true)
    && Sold(req.quantities, s.catalog[i].id)
    && forall j :: 0 <= j < |s.catalog| && j != i ==> !Sold(req.quantities, s.catalog[j].id)
  }

  /** Selling one product gives one line priced from that product, takes its
      quantity off that product's stock only, and writes a row whose total is
      quantity times rate. */
  lemma SingleProductSale(s: State, req: InvoiceRequest, fx: Effects, i: int)
    requires Valid(s)
    requires SellsOnly(s, req, fx, i)
    ensures var r := CreateInvoice(s, req, fx);
      var p, q := s.catalog[i], ParseQuantity(req.quantities, s.catalog[i].id).value;
      && r.outcome.Ok?
      && r.outcome.value.lines == [LineFor(p, q)]
      && r.state.catalog[i] == p.(stock := p.stock - q)
      && (forall j :: 0 <= j < |s.catalog| && j != i ==> r.state.catalog[j] == s.catalog[j])
      && r.state.ledger[|s.ledger|].total == q * p.rate
  {
    SingleProductLines(s, req, fx, i);
    var lines := CreateInvoice(s, req, fx).outcome.value.lines;
    CreateInvoiceStock(s, req, fx);
    CreateInvoiceRecord(s, req, fx);
    assert Subtotal(lines) == lines[0].amount by {
      assert lines[..0] == [];
    }
  }

  /** The line part of SingleProductSale: the invoice is created and its
      only line is the sold product's. */
  lemma SingleProductLines(s: State, req: InvoiceRequest, fx: Effects, i: int)
    requires SellsOnly(s, req, fx, i)
    ensures var r := CreateInvoice(s, req, fx);
      && r.outcome.Ok?
      && r.outcome.value.lines == [LineFor(s.catalog[i], ParseQuantity(req.quantities, s.catalog[i].id).value)]
  {
    CreateInvoiceAtomic(s, req, fx);
    var pos := CreateInvoiceLines(s, req, fx);
    var lines := CreateInvoice(s, req, fx).outcome.value.lines;
    SelectsSingle(s.catalog, req.quantities, lines, pos, i);
  }

  /** Three units of a product at 50.00 with 10 on hand: one line of 150.00,
      stock 7 afterwards, and an invoice row of 150.00. */
  lemma ThreeAtFifty(s: State, req: InvoiceRequest, fx: Effects, i: int)
    requires Valid(s)
    requires SellsOnly(s, req, fx, i)
    requires s.catalog[i].rate == 50.0 && s.catalog[i].stock == 10.0
    requires ParseQuantity(req.quantities, s.catalog[i].id) == Ok(3.0)
    ensures var r := CreateInvoice(s, req, fx);
      && r.outcome.Ok?
      && |r.outcome.value.lines| == 1
      && r.outcome.value.lines[0].qty == 3.0 && r.outcome.value.lines[0].amount == 150.0
      && r.state.catalog[i].stock == 7.0
      && r.state.ledger[|s.ledger|].total == 150.0
  {
    SingleProductSale(s, req, fx, i);
  }

  /** When nothing is sold the invoice has no lines and no tax, stock is
      untouched, and a row with total 0 is still written. */
  lemma NothingSoldInvoice(s: State, req: InvoiceRequest, fx: Effects)
    requires AllParse(s.catalog, req.quantities) && HasMeta(req.fields) && fx == Effects(true, true)
    requires forall i :: 0 <= i < |s.catalog| ==> !Sold(req.quantities, s.catalog[i].id)
    ensures var r := CreateInvoice(s, req, fx);
      && r.outcome.Ok?
      && r.outcome.value.lines == []
      && r.outcome.value.tax == TaxSplit(0.0, 0.0, 0.0, 0.0, 0.0)
      && r.state.catalog == s.catalog
      && r.state.ledger == s.ledger + [InvoiceRecord(req.fields["invoice_no"], req.fields["invoice_date"],
                                                     req.fields["customer_name"], 0.0,
                                                     req.fields["invoice_no"] + ".pdf")]
  {
    NothingSoldNoLines(s.catalog, req.quantities);
    CreateInvoiceAtomic(s, req, fx);
    CreateInvoiceTotals(s, req, fx);
    CreateInvoiceRecord(s, req, fx);
  }

  /** Selling more than is on hand is not refused: the invoice is created and
      the stock goes negative. */
  lemma OversellGoesNegative(s: State, req: InvoiceRequest, fx: Effects, i: int)
    requires Valid(s)
    requires AllParse(s.catalog, req.quantities) && HasMeta(req.fields) && fx == Effects(true, true)
    requires 0 <= i < |s.catalog|
    requires ParseQuantity(req.quantities, s.catalog[i].id).value > s.catalog[i].stock >= 0.0
    ensures var r := CreateInvoice(s, req, fx);
      r.outcome.Ok? && r.state.catalog[i].stock < 0.0
  {
    CreateInvoiceAtomic(s, req, fx);
    CreateInvoiceStock(s, req, fx);
  }
}

=== FILE: catalog.dfy ===
/** The products table: an ordered catalog of products with their stock. */
module Catalog {

  type ProductId = int

  /** One row of the products table. */
  datatype Product = Product(
    id: ProductId,
    code: string,
    name: string,
    hsn: string,
    uom: string,
    rate: real,
    stock: real)

  /** Product ids are the table's primary key. */
  predicate UniqueIds(cat: seq<Product>)
  {
    forall i, j :: 0 <= i < j < |cat| ==> cat[i].id != cat[j].id
  }

  predicate HasId(cat: seq<Product>, id: ProductId)
  {
    exists i :: 0 <= i < |cat| && cat[i].id == id
  }

  /** `UPDATE products SET stock = stock + delta WHERE id = ?`: the row whose
      id matches moves its stock by `delta`; no other field and no other row
      changes, and an id that matches no row changes nothing. */
  function Adjust(cat: seq<Product>, id: ProductId, delta: real): (r: seq<Product>)
    ensures |r| == |cat|
    ensures forall i :: 0 <= i < |cat| ==>
      r[i] == cat[i].(stock := cat[i].stock + (if cat[i].id == id then delta else 0.0))
    decreases |cat|
  {
    if cat == [] then []
    else
      var row := if cat[0].id == id then cat[0].(stock := cat[0].stock + delta) else cat[0];
      [row] + Adjust(cat[1..], id, delta)
  }

  /** Moving a stock by `delta` and then by `-delta` restores the catalog:
      a top-up of the quantity just sold undoes the sale's decrement. */
  lemma AdjustInverse(cat: seq<Product>, id: ProductId, delta: real)
    ensures Adjust(Adjust(cat, id, delta), id, -delta) == cat
  {
  }

  /** Two updates of the same row add up. */
  lemma AdjustMerge(cat: seq<Product>, id: ProductId, a: real, b: real)
    ensures Adjust(Adjust(cat, id, a), id, b) == Adjust(cat, id, a + b)
  {
    var once, twice := Adjust(cat, id, a + b), Adjust(Adjust(cat, id, a), id, b);
    forall i | 0 <= i < |cat|
      ensures twice[i] == once[i]
    {
      if cat[i].id == id {
        assert twice[i].stock == cat[i].stock + a + b;
      } else {
        assert twice[i] == cat[i];
      }
    }
  }

  /** Updates of different rows commute, so the order in which the sold
      products are decremented does not matter. */
  lemma AdjustCommute(cat: seq<Product>, id1: ProductId, a: real, id2: ProductId, b: real)
    ensures Adjust(Adjust(cat, id1, a), id2, b) == Adjust(Adjust(cat, id2, b), id1, a)
  {
  }

  /** An update whose id matches no row leaves the catalog as it was. */
  lemma AdjustUnknownId(cat: seq<Product>, id: ProductId, delta: real)
    requires !HasId(cat, id)
    ensures Adjust(cat, id, delta) == cat
  {
    assert forall i :: 0 <= i < |cat| ==> cat[i].id != id;
  }

  /** Updating a stock never changes an id, so ids stay unique. */
  lemma AdjustKeepsIds(cat: seq<Product>, id: ProductId, delta: real)
    ensures forall i :: 0 <= i < |cat| ==> Adjust(cat, id, delta)[i].id == cat[i].id
    ensures UniqueIds(cat) ==> UniqueIds(Adjust(cat, id, delta))
    ensures forall x :: HasId(cat, x) <==> HasId(Adjust(cat, id, delta), x)
  {
  }
}

=== FILE: forms.dfy ===
/** The numeric fields of the posted forms and how the handlers turn them into numbers. */
module Forms {
  import opened Results

  /** The text of a numeric form field, classified by what Python's float()
      makes of it: the empty string, text that denotes a number, or anything
      float() rejects. */
  datatype NumText = Blank | Number(value: real) | Junk

  /** The quantity fields of an invoice form, keyed by product id; an id with
      no field is absent from the map. */
  type QtyForm = map<int, NumText>

  /** The quantity of product `id` as the invoice handler reads it: an absent
      field defaults to 0, a blank one is falsy and also becomes 0, and only
      text float() rejects is an error. */
  function ParseQuantity(form: QtyForm, id: int): (r: Result<real>)
    ensures r.Err? <==> id in form && form[id].Junk?
    ensures r.Err? ==> r.error == BadQuantity(id)
    ensures id in form && form[id].Number? ==> r == Ok(form[id].value)
    ensures id !in form || form[id].Blank? ==> r == Ok(0.0)
  {
    if id !in form then Ok(0.0)
    else match form[id]
      case Blank => Ok(0.0)
      case Number(v) => Ok(v)
      case Junk => Err(BadQuantity(id))
  }

  /** A required numeric field read as `float(form[name])`: an absent field
      is a missing-field error and, unlike a quantity, a blank one is not a
      number. */
  function ParseRequired(field: Option<NumText>, name: string): (r: Result<real>)
    ensures r.Ok? <==> field.Some? && field.value.Number?
    ensures r.Ok? ==> field.value.value == r.value
    ensures r == Err(MissingField(name)) <==> field.None?
    ensures r.Err? && field.Some? ==> r.error == NotANumber(name)
  {
    match field
    case None => Err(MissingField(name))
    case Some(Number(v)) => Ok(v)
    case Some(_) => Err(NotANumber(name))
  }
}

=== FILE: gst.dfy ===
/** The GST split of a tax-inclusive invoice value: the taxable value and the
    tax, charged as CGST plus SGST on an intra-State supply and as IGST on an
    inter-State one (sections 7 and 8 of the Integrated Goods and Services
    Tax Act, 2017). */
module Gst {

  /** The supplier's State code (Andhra Pradesh). */
  const SUPPLIER_STATE_CODE: string := "37"

  /** The rate is fixed at 18%, applied by dividing by 1.18. */
  const INCLUSIVE_FACTOR: real := 1.18

  datatype Regime = IntraState | InterState

  /** Place of supply: a customer in the supplier's own State is an
      intra-State supply, any other code an inter-State one. */
  function PlaceOfSupply(stateCode: string): Regime
  {
    if stateCode == SUPPLIER_STATE_CODE then IntraState else InterState
  }

  /** The taxable value ("Gross" on the invoice), the whole tax and its three
      heads. */
  datatype TaxSplit = TaxSplit(gross: real, gst: real, cgst: real, sgst: real, igst: real)

  /** The three heads put back together with the taxable value. */
  function InvoiceValue(t: TaxSplit): real
  {
    t.gross + t.cgst + t.sgst + t.igst
  }

  /** Splits a tax-inclusive subtotal for a customer in State `stateCode`.
      The taxable value is what 18% on top turns into the subtotal, the tax
      is 18/118 of it, and the heads share the tax without loss. */
  function Split(subtotal: real, stateCode: string): (t: TaxSplit)
    ensures t.gross * INCLUSIVE_FACTOR == subtotal
    ensures t.gross + t.gst == subtotal
    ensures t.gst == subtotal * 0.18 / 1.18
    ensures t.cgst + t.sgst + t.igst == t.gst
    ensures InvoiceValue(t) == subtotal
  {
    var gross := subtotal / INCLUSIVE_FACTOR;
    var gst := subtotal - gross;
    if stateCode == SUPPLIER_STATE_CODE then TaxSplit(gross, gst, gst / 2.0, gst / 2.0, 0.0)
    else TaxSplit(gross, gst, 0.0, 0.0, gst)
  }

  /** The taxable value is the only base that 18% on top turns into the
      subtotal. */
  lemma TaxableValueUnique(subtotal: real, stateCode: string, base: real)
    ensures base * INCLUSIVE_FACTOR == subtotal <==> base == Split(subtotal, stateCode).gross
  {
  }

  /** Intra-State: equal CGST and SGST halves of the tax and no IGST;
      inter-State: all of the tax as IGST and no CGST or SGST. */
  lemma SplitByPlaceOfSupply(subtotal: real, stateCode: string)
    ensures PlaceOfSupply(stateCode) == IntraState ==>
      var t := Split(subtotal, stateCode);
      t.cgst == t.sgst == t.gst / 2.0 && t.igst == 0.0
    ensures PlaceOfSupply(stateCode) == InterState ==>
      var t := Split(subtotal, stateCode);
      t.cgst == t.sgst == 0.0 && t.igst == t.gst
  {
  }

  /** On a non-zero subtotal exactly one regime carries the tax, and which
      one is decided by the customer's State code alone. */
  lemma ExactlyOneRegime(subtotal: real, stateCode: string)
    requires subtotal != 0.0
    ensures var t := Split(subtotal, stateCode);
      && t.gst != 0.0
      && (t.cgst != 0.0 <==> stateCode == SUPPLIER_STATE_CODE)
      && (t.sgst != 0.0 <==> stateCode == SUPPLIER_STATE_CODE)
      && (t.igst != 0.0 <==> stateCode != SUPPLIER_STATE_CODE)
  {
  }

  /** A zero subtotal carries no tax under either regime. */
  lemma ZeroSubtotalNoTax(stateCode: string)
    ensures Split(0.0, stateCode) == TaxSplit(0.0, 0.0, 0.0, 0.0, 0.0)
  {
  }

  /** A non-negative subtotal gives non-negative figures throughout. */
  lemma SplitNonNegative(subtotal: real, stateCode: string)
    requires subtotal >= 0.0
    ensures var t := Split(subtotal, stateCode);
      t.gross >= 0.0 && t.gst >= 0.0 && t.cgst >= 0.0 && t.sgst >= 0.0 && t.igst >= 0.0
  {
  }

  /** 1180.00 within Andhra Pradesh: taxable 1000.00, CGST and SGST 90.00 each. */
  lemma IntraStateExample()
    ensures Split(1180.0, "37") == TaxSplit(1000.0, 180.0, 90.0, 90.0, 0.0)
  {
  }

  /** 1180.00 to another State: taxable 1000.00, IGST 180.00. */
  lemma InterStateExample()
    ensures Split(1180.0, "29") == TaxSplit(1000.0, 180.0, 0.0, 0.0, 180.0)
  {
  }
}

=== FILE: lines.dfy ===
/** Turning the catalog and the posted quantities into priced invoice lines. */
module Lines {
  import opened Results
  import opened Catalog
  import opened Forms

  /** One invoice line: what the product row held when it was read, the
      quantity sold and the line amount. */
  datatype Line = Line(
    productId: ProductId,
    code: string,
    name: string,
    hsn: string,
    uom: string,
    qty: real,
    rate: real,
    amount: real)

  function LineFor(p: Product, qty: real): Line
  {
    Line(p.id, p.code, p.name, p.hsn, p.uom, qty, p.rate, qty * p.rate)
  }

  /** The form's quantity for `id` parses and is strictly positive. */
  predicate Sold(form: QtyForm, id: ProductId)
  {
    ParseQuantity(form, id).Ok? && ParseQuantity(form, id).value > 0.0
  }

  /** The quantity an invoice takes from product `id`: 0 when it is not sold. */
  function SoldQty(form: QtyForm, id: ProductId): real
  {
    if Sold(form, id) then ParseQuantity(form, id).value else 0.0
  }

  /** Every catalog product's quantity parses. */
  predicate AllParse(cat: seq<Product>, form: QtyForm)
  {
    forall i :: 0 <= i < |cat| ==> ParseQuantity(form, cat[i].id).Ok?
  }

  /** The handler's walk over the products: each product's quantity is
      parsed, a product with a positive quantity gets a line priced at the
      rate just read, and the first quantity that is not a number aborts the
      walk. Defined on the catalog's last product so that it folds from the
      front, as the loop does. */
  function BuildLines(cat: seq<Product>, form: QtyForm): (r: Result<seq<Line>>)
    ensures r.Ok? <==> AllParse(cat, form)
    ensures r.Ok? ==> |r.value| <= |cat|
    decreases |cat|
  {
    if cat == [] then Ok([])
    else
      var p := cat[|cat| - 1];
      match BuildLines(cat[..|cat| - 1], form)
      case Err(e) => Err(e)
      case Ok(ls) =>
        match ParseQuantity(form, p.id)
        case Err(e) => Err(e)
        case Ok(q) => Ok(if q > 0.0 then ls + [LineFor(p, q)] else ls)
  }

  /** The sum of the line amounts, added in line order. */
  function Subtotal(ls: seq<Line>): real
    decreases |ls|
  {
    if ls == [] then 0.0 else Subtotal(ls[..|ls| - 1]) + ls[|ls| - 1].amount
  }

  /** An independent reading of the invoice value: over the whole catalog,
      sold quantity times rate, counting 0 for every product not sold. */
  function CatalogValue(cat: seq<Product>, form: QtyForm): real
    decreases |cat|
  {
    if cat == [] then 0.0
    else CatalogValue(cat[..|cat| - 1], form) + SoldQty(form, cat[|cat| - 1].id) * cat[|cat| - 1].rate
  }

  /** `lines` is the selection of the catalog at positions `pos`: the
      positions increase, each one holds a product that is sold, its line
      copies that product's fields and rate with amount qty * rate, and no
      sold product is missing. */
  ghost predicate Selects(cat: seq<Product>, form: QtyForm, lines: seq<Line>, pos: seq<int>)
  {
    && |pos| == |lines|
    && (forall k :: 0 <= k < |pos| ==> 0 <= pos[k] < |cat|)
    && (forall k, k' :: 0 <= k < k' < |pos| ==> pos[k] < pos[k'])
    && (forall k :: 0 <= k < |pos| ==> LineOf(cat, form, lines, pos, k))
    && (forall i :: 0 <= i < |cat| && Sold(form, cat[i].id) ==> i in pos)
  }

  /** Line `k` comes from the sold product at catalog position `pos[k]`,
      copies its fields and rate, and costs qty * rate. */
  ghost predicate LineOf(cat: seq<Product>, form: QtyForm, lines: seq<Line>, pos: seq<int>, k: int)
    requires 0 <= k < |pos| == |lines|
    requires 0 <= pos[k] < |cat|
  {
    var p, l := cat[pos[k]], lines[k];
    && Sold(form, p.id) && l.qty == ParseQuantity(form, p.id).value
    && l.productId == p.id && l.code == p.code && l.name == p.name
    && l.hsn == p.hsn && l.uom == p.uom && l.rate == p.rate
    && l.amount == l.qty * p.rate
  }

  /** The lines are exactly the sold products, in catalog order, each priced
      from its own row; zero, negative, blank and absent quantities are
      skipped without error. */
  lemma {:induction false} BuildLinesSelects(cat: seq<Product>, form: QtyForm) returns (pos: seq<int>)
    requires BuildLines(cat, form).Ok?
    ensures Selects(cat, form, BuildLines(cat, form).value, pos)
    decreases |cat|
  {
    if cat == [] {
      pos := [];
    } else {
      var n := |cat| - 1;
      var init := cat[..n];
      var p := cat[n];
      var pos0 := BuildLinesSelects(init, form);
      var ls := BuildLines(init, form).value;
      var q := ParseQuantity(form, p.id).value;
      assert forall i :: 0 <= i < n ==> init[i] == cat[i];
      if q > 0.0 {
        pos := pos0 + [n];
        var lines := ls + [LineFor(p, q)];
        assert BuildLines(cat, form).value == lines;
        assert forall k :: 0 <= k < |pos0| ==> pos[k] == pos0[k] && lines[k] == ls[k];
        assert pos[|pos0|] == n && lines[|pos0|] == LineFor(p, q);
        SelectsExtend(cat, form, ls, pos0, lines, pos);
      } else {
        pos := pos0;
        assert BuildLines(cat, form).value == ls;
        assert !Sold(form, p.id);
        SelectsSkip(cat, form, ls, pos);
      }
    }
  }

  /** Selection step for a catalog whose last product is sold. */
  lemma SelectsExtend(cat: seq<Product>, form: QtyForm, ls: seq<Line>, pos0: seq<int>,
                      lines: seq<Line>, pos: seq<int>)
    requires |cat| > 0
    requires Selects(cat[..|cat| - 1], form, ls, pos0)
    requires Sold(form, cat[|cat| - 1].id)
    requires lines == ls + [LineFor(cat[|cat| - 1], ParseQuantity(form, cat[|cat| - 1].id).value)]
    requires pos == pos0 + [|cat| - 1]
    ensures Selects(cat, form, lines, pos)
  {
    var n := |cat| - 1;
    var init := cat[..n];
    assert forall k :: 0 <= k < |pos0| ==> pos[k] == pos0[k] && lines[k] == ls[k];
    assert forall k :: 0 <= k < |pos| ==> 0 <= pos[k] < |cat|;
    assert forall k, k' :: 0 <= k < k' < |pos| ==> pos[k] < pos[k'];
    forall k | 0 <= k < |pos|
      ensures LineOf(cat, form, lines, pos, k)
    {
      if k < |pos0| {
        assert init[pos0[k]] == cat[pos[k]];
        assert LineOf(init, form, ls, pos0, k);
      }
    }
    forall i | 0 <= i < |cat| && Sold(form, cat[i].id)
      ensures i in pos
    {
      if i < n {
        assert init[i] == cat[i];
        assert i in pos0;
      } else {
        assert pos[|pos| - 1] == i;
      }
    }
  }

  /** Selection step for a catalog whose last product is not sold. */
  lemma SelectsSkip(cat: seq<Product>, form: QtyForm, ls: seq<Line>, pos: seq<int>)
    requires |cat| > 0
    requires Selects(cat[..|cat| - 1], form, ls, pos)
    requires !Sold(form, cat[|cat| - 1].id)
    ensures Selects(cat, form, ls, pos)
  {
    var n := |cat| - 1;
    var init := cat[..n];
    assert forall i :: 0 <= i < n ==> init[i] == cat[i];
    forall k | 0 <= k < |pos|
      ensures LineOf(cat, form, ls, pos, k)
    {
      assert init[pos[k]] == cat[pos[k]];
      assert LineOf(init, form, ls, pos, k);
    }
    forall i | 0 <= i < |cat| && Sold(form, cat[i].id)
      ensures i in pos
    {
      assert i < n;
      assert init[i] == cat[i];
    }
  }

  lemma Increasing(pos: seq<int>, a: int, b: int)
    requires forall k, k' :: 0 <= k < k' < |pos| ==> pos[k] < pos[k']
    requires 0 <= a < b < |pos|
    ensures pos[a] < pos[b]
  {
  }

  /** A selection in which only position `i` is sold is the single line of
      that product. */
  lemma SelectsSingle(cat: seq<Product>, form: QtyForm, lines: seq<Line>, pos: seq<int>, i: int)
    requires Selects(cat, form, lines, pos)
    requires 0 <= i < |cat| && Sold(form, cat[i].id)
    requires forall j :: 0 <= j < |cat| && j != i ==> !Sold(form, cat[j].id)
    ensures lines == [LineFor(cat[i], ParseQuantity(form, cat[i].id).value)]
  {
    assert i in pos;
    forall k | 0 <= k < |pos| ensures pos[k] == i {
      assert LineOf(cat, form, lines, pos, k);
    }
    if |pos| >= 2 {
      Increasing(pos, 0, 1);
      assert false;
    }
    assert |lines| == 1 && pos[0] == i;
    assert LineOf(cat, form, lines, pos, 0);
    var p, q := cat[i], ParseQuantity(form, cat[i].id).value;
    assert lines[0] == Line(p.id, p.code, p.name, p.hsn, p.uom, q, p.rate, q * p.rate);
    assert LineFor(p, q) == lines[0];
    assert lines == [lines[0]];
  }

  /** When some quantity is not a number, the error names the first such
      product in catalog order. */
  lemma {:induction false} BuildLinesFirstBad(cat: seq<Product>, form: QtyForm) returns (i: int)
    requires BuildLines(cat, form).Err?
    ensures 0 <= i < |cat|
    ensures ParseQuantity(form, cat[i].id).Err?
    ensures BuildLines(cat, form).error == BadQuantity(cat[i].id)
    ensures forall j :: 0 <= j < i ==> ParseQuantity(form, cat[j].id).Ok?
    decreases |cat|
  {
    var n := |cat| - 1;
    var init := cat[..n];
    if BuildLines(init, form).Err? {
      i := BuildLinesFirstBad(init, form);
      assert init[i] == cat[i];
      assert forall j :: 0 <= j < i ==> init[j] == cat[j];
    } else {
      i := n;
      assert forall j :: 0 <= j < n ==> init[j] == cat[j];
    }
  }

  /** Adding lines in two parts adds their subtotals. */
  lemma {:induction false} SubtotalAppend(a: seq<Line>, b: seq<Line>)
    ensures Subtotal(a + b) == Subtotal(a) + Subtotal(b)
    decreases |b|
  {
    if b != [] {
      var n := |b| - 1;
      assert (a + b)[..|a + b| - 1] == a + b[..n];
      SubtotalAppend(a, b[..n]);
    } else {
      assert a + b == a;
    }
  }

  /** A successful walk is the walk of all but the last product, with the
      last product's line appended when its quantity is positive. */
  lemma BuildLinesLast(cat: seq<Product>, form: QtyForm)
    requires cat != [] && BuildLines(cat, form).Ok?
    ensures BuildLines(cat[..|cat| - 1], form).Ok?
    ensures ParseQuantity(form, cat[|cat| - 1].id).Ok?
    ensures var q := ParseQuantity(form, cat[|cat| - 1].id).value;
      var ls := BuildLines(cat[..|cat| - 1], form).value;
      BuildLines(cat, form).value == if q > 0.0 then ls + [LineFor(cat[|cat| - 1], q)] else ls
  {
  }

  /** The subtotal of the built lines equals the catalog-wide value: the sum
      of sold quantity times rate. With nothing sold both are 0. */
  lemma {:induction false} SubtotalIsCatalogValue(cat: seq<Product>, form: QtyForm)
    requires BuildLines(cat, form).Ok?
    ensures Subtotal(BuildLines(cat, form).value) == CatalogValue(cat, form)
    decreases |cat|
  {
    if cat != [] {
      var n := |cat| - 1;
      var p := cat[n];
      SubtotalIsCatalogValue(cat[..n], form);
      var ls := BuildLines(cat[..n], form).value;
      var q := ParseQuantity(form, p.id).value;
      BuildLinesLast(cat, form);
      if q > 0.0 {
        assert (ls + [LineFor(p, q)])[..|ls|] == ls;
        assert SoldQty(form, p.id) == q;
      } else {
        assert SoldQty(form, p.id) == 0.0;
      }
    }
  }

  /** Non-negative rates give a non-negative subtotal (quantities on lines
      are positive by construction). */
  lemma {:induction false} SubtotalNonNegative(cat: seq<Product>, form: QtyForm)
    requires BuildLines(cat, form).Ok?
    requires forall i :: 0 <= i < |cat| ==> cat[i].rate >= 0.0
    ensures Subtotal(BuildLines(cat, form).value) >= 0.0
    decreases |cat|
  {
    if cat != [] {
      var n := |cat| - 1;
      var p := cat[n];
      SubtotalNonNegative(cat[..n], form);
      var ls := BuildLines(cat[..n], form).value;
      var q := ParseQuantity(form, p.id).value;
      BuildLinesLast(cat, form);
      if q > 0.0 {
        assert (ls + [LineFor(p, q)])[..|ls|] == ls;
        assert q * p.rate >= 0.0;
      }
    }
  }

  /** With no product sold there are no lines and the subtotal is 0. */
  lemma NothingSoldNoLines(cat: seq<Product>, form: QtyForm)
    requires BuildLines(cat, form).Ok?
    requires forall i :: 0 <= i < |cat| ==> !Sold(form, cat[i].id)
    ensures BuildLines(cat, form).value == []
    ensures Subtotal(BuildLines(cat, form).value) == 0.0
  {
    var pos := BuildLinesSelects(cat, form);
  }
}

=== FILE: results.dfy ===
/** Failure-carrying values shared by every module of the billing model. */
module Results {

  /** Why a request ended without its effect. Each one is an exception in the
      request handler, raised before or by the database commit, so none of
      them leaves a committed change behind. */
  datatype Error =
    | MissingField(name: string)   // a required form field is absent (answered with 400)
    | NotANumber(name: string)     // float() rejected the text of a required numeric field
    | BadQuantity(product: int)    // float() rejected the quantity entered for this product id
    | PdfWriteFailed               // writing the rendered invoice document failed
    | CommitFailed                 // the database did not accept the commit

  datatype Option<+T> = None | Some(value: T)

  datatype Result<+T> = Ok(value: T) | Err(error: Error)
}

=== FILE: sales.dfy ===
/** What an invoice does to stock, and the handler's single pass that builds
    the lines, sums them and decrements stock as it goes. */
module Sales {
  import opened Results
  import opened Catalog
  import opened Forms
  import opened Lines

  /** The total quantity the lines take from product `id`. */
  function LineQty(ls: seq<Line>, id: ProductId): real
    decreases |ls|
  {
    if ls == [] then 0.0
    else LineQty(ls[..|ls| - 1], id) + (if ls[|ls| - 1].productId == id then ls[|ls| - 1].qty else 0.0)
  }

  /** One `UPDATE products SET stock = stock - qty WHERE id = ?` per line, in
      line order. */
  function ApplySale(cat: seq<Product>, ls: seq<Line>): (r: seq<Product>)
    ensures |r| == |cat|
    decreases |ls|
  {
    if ls == [] then cat
    else
      var l := ls[|ls| - 1];
      Adjust(ApplySale(cat, ls[..|ls| - 1]), l.productId, -l.qty)
  }

  /** Every product loses exactly what the lines take from it and keeps
      every other field; nothing checks that the stock suffices. */
  lemma {:induction false} ApplySaleEffect(cat: seq<Product>, ls: seq<Line>)
    ensures |ApplySale(cat, ls)| == |cat|
    ensures forall i :: 0 <= i < |cat| ==>
      ApplySale(cat, ls)[i] == cat[i].(stock := cat[i].stock - LineQty(ls, cat[i].id))
    decreases |ls|
  {
    if ls != [] {
      ApplySaleEffect(cat, ls[..|ls| - 1]);
    }
  }

  /** Lines built from a catalog take nothing from an id the catalog lacks. */
  lemma {:induction false} LineQtyForeignId(cat: seq<Product>, form: QtyForm, id: ProductId)
    requires BuildLines(cat, form).Ok?
    requires !HasId(cat, id)
    ensures LineQty(BuildLines(cat, form).value, id) == 0.0
    decreases |cat|
  {
    if cat != [] {
      var n := |cat| - 1;
      var p := cat[n];
      assert !HasId(cat[..n], id) by {
        forall i | 0 <= i < n ensures cat[..n][i].id != id {
          assert cat[..n][i] == cat[i];
        }
      }
      LineQtyForeignId(cat[..n], form, id);
      var ls := BuildLines(cat[..n], form).value;
      var q := ParseQuantity(form, p.id).value;
      if q > 0.0 {
        assert (ls + [LineFor(p, q)])[..|ls|] == ls;
        assert p.id != id;
      }
    }
  }

  /** With unique ids, the lines take from each catalog product exactly its
      sold quantity: its positive parsed quantity, or 0. */
  lemma {:induction false} LineQtyIsSoldQty(cat: seq<Product>, form: QtyForm, i: int)
    requires UniqueIds(cat)
    requires BuildLines(cat, form).Ok?
    requires 0 <= i < |cat|
    ensures LineQty(BuildLines(cat, form).value, cat[i].id) == SoldQty(form, cat[i].id)
    decreases |cat|
  {
    var n := |cat| - 1;
    var init := cat[..n];
    var p := cat[n];
    assert UniqueIds(init) by {
      forall a, b | 0 <= a < b < |init| ensures init[a].id != init[b].id {
        assert init[a] == cat[a] && init[b] == cat[b];
      }
    }
    var ls := BuildLines(init, form).value;
    var q := ParseQuantity(form, p.id).value;
    var id := cat[i].id;
    if i < n {
      assert init[i] == cat[i];
      LineQtyIsSoldQty(init, form, i);
      if q > 0.0 {
        assert (ls + [LineFor(p, q)])[..|ls|] == ls;
      }
    } else {
      assert !HasId(init, id) by {
        forall j | 0 <= j < n ensures init[j].id != id {
          assert init[j] == cat[j];
        }
      }
      LineQtyForeignId(init, form, id);
      if q > 0.0 {
        assert (ls + [LineFor(p, q)])[..|ls|] == ls;
      }
    }
  }

  /** The stock effect of an invoice, stated on the catalog: a sold product
      loses exactly its quantity, possibly going negative, and every product
      without a line is untouched. */
  lemma SaleStock(cat: seq<Product>, form: QtyForm)
    requires UniqueIds(cat)
    requires BuildLines(cat, form).Ok?
    ensures |ApplySale(cat, BuildLines(cat, form).value)| == |cat|
    ensures forall i :: 0 <= i < |cat| ==>
      ApplySale(cat, BuildLines(cat, form).value)[i]
        == cat[i].(stock := cat[i].stock - SoldQty(form, cat[i].id))
    ensures forall i :: 0 <= i < |cat| && !Sold(form, cat[i].id) ==>
      ApplySale(cat, BuildLines(cat, form).value)[i] == cat[i]
  {
    ApplySaleEffect(cat, BuildLines(cat, form).value);
    forall i | 0 <= i < |cat|
      ensures ApplySale(cat, BuildLines(cat, form).value)[i]
        == cat[i].(stock := cat[i].stock - SoldQty(form, cat[i].id))
    {
      LineQtyIsSoldQty(cat, form, i);
    }
  }

  /** The outcome of the handler's product loop: the lines, their running
      subtotal, and the catalog after the (not yet committed) decrements. */
  datatype Sale = Sale(lines: seq<Line>, subtotal: real, catalog: seq<Product>)

  /** The loop's outcome by definition: the built lines, their subtotal and
      the catalog with every line's quantity taken off. */
  function SaleOf(cat: seq<Product>, form: QtyForm): Result<Sale>
  {
    match BuildLines(cat, form)
    case Err(e) => Err(e)
    case Ok(ls) => Ok(Sale(ls, Subtotal(ls), ApplySale(cat, ls)))
  }

  /** A failure seen at a prefix of the catalog is the failure of the whole. */
  lemma {:induction false} BuildLinesErrPersists(cat: seq<Product>, form: QtyForm, j: int)
    requires 0 <= j <= |cat|
    requires BuildLines(cat[..j], form).Err?
    ensures BuildLines(cat, form) == BuildLines(cat[..j], form)
    decreases |cat| - j
  {
    if j < |cat| {
      assert cat[..j + 1][..j] == cat[..j];
      BuildLinesErrPersists(cat, form, j + 1);
    } else {
      assert cat[..j] == cat;
    }
  }

  /** The loop's state after the first `i` products of the snapshot: the
      lines so far, their subtotal and the catalog with their decrements. */
  function Walk(cat: seq<Product>, form: QtyForm, i: int): Result<Sale>
    requires 0 <= i <= |cat|
  {
    match BuildLines(cat[..i], form)
    case Err(e) => Err(e)
    case Ok(ls) => Ok(Sale(ls, Subtotal(ls), ApplySale(cat, ls)))
  }

  /** One more product of the walk: a positive quantity adds a line priced
      from the snapshot, its amount and its decrement; any other number
      leaves the walk as it was. */
  lemma WalkStep(cat: seq<Product>, form: QtyForm, i: int, sale: Sale, q: real)
    requires 0 <= i < |cat|
    requires Walk(cat, form, i) == Ok(sale)
    requires ParseQuantity(form, cat[i].id) == Ok(q)
    ensures Walk(cat, form, i + 1) == Ok(
      if q > 0.0 then
        var line := LineFor(cat[i], q);
        Sale(sale.lines + [line], sale.subtotal + line.amount, Adjust(sale.catalog, cat[i].id, -q))
      else sale)
  {
    assert cat[..i + 1][..i] == cat[..i];
    assert cat[..i + 1][i] == cat[i];
    var line := LineFor(cat[i], q);
    assert (sale.lines + [line])[..|sale.lines|] == sale.lines;
  }

  /** A quantity that is not a number ends the walk with its error. */
  lemma WalkFails(cat: seq<Product>, form: QtyForm, i: int, sale: Sale, e: Error)
    requires 0 <= i < |cat|
    requires Walk(cat, form, i) == Ok(sale)
    requires ParseQuantity(form, cat[i].id) == Err(e)
    ensures SaleOf(cat, form) == Err(e)
  {
    assert cat[..i + 1][..i] == cat[..i];
    assert cat[..i + 1][i] == cat[i];
    BuildLinesErrPersists(cat, form, i + 1);
  }

  /** The handler's loop over the product snapshot: parse the quantity,
      skip non-positive ones, price the line at the snapshot's rate, add it
      to the subtotal and decrement that product's stock, all in one pass. */
  method Checkout(cat: seq<Product>, form: QtyForm) returns (r: Result<Sale>)
    ensures r == SaleOf(cat, form)
  {
    var items: seq<Line> := [];
    var subtotal := 0.0;
    var current := cat;
    var i := 0;
    assert cat[..0] == [];
    while i < |cat|
      invariant 0 <= i <= |cat|
      invariant Walk(cat, form, i) == Ok(Sale(items, subtotal, current))
    {
      var p := cat[i];
      match ParseQuantity(form, p.id)
      case Err(e) =>
        WalkFails(cat, form, i, Sale(items, subtotal, current), e);
        return Err(e);
      case Ok(q) =>
        WalkStep(cat, form, i, Sale(items, subtotal, current), q);
        if q > 0.0 {
          var line := LineFor(p, q);
          items := items + [line];
          subtotal := subtotal + line.amount;
          current := Adjust(current, p.id, -q);
        }
      i := i + 1;
    }
    assert cat[..i] == cat;
    r := Ok(Sale(items, subtotal, current));
  }
}
